=== FILE: README.md ===
# Cocktail navigator — a functional model

The cocktail navigator is a small browser application. The user picks a
drink category and a result limit. The application fetches that many drinks
of the category from a remote catalog, enriches each with a second per-drink
lookup, caches the result, and lets the user page through the drinks one at a
time with a "next" button.

This project models the deterministic rules inside the event handlers of
`js/app.js` and the configuration of `js/constants.js` as pure Dafny
functions over immutable data, and proves what they guarantee:

- `Constants`: the eleven categories, the 1..100 amount bounds and the
  default preferences `{category: "Beer", limit: 10}`.
- `Retrieval`: `fetchCocktails`. The category listing is truncated to the
  limit, in service order. Each kept entry is enriched with the first record of
  its own lookup, and an entry whose lookup answers `null` stays without details.
- `Ingredients`: the scan of the positional fields `strIngredient1..15`.
- `Paging`: the `(activeId, counter)` cursor and the "next" handler, which finds
  the successor by its predecessor's id rather than by position.
- `Views`: `showComponent`, `showPreferences` and `showCocktails`, reduced to
  the state they produce.
- `App`: `init`, the form submit handler, the navigation click handler and
  the cocktails click handler, as transitions of one immutable application
  state.

The catalog service's answers are parameters: the listing is an
`Option<seq<Summary>>` (`None` is `drinks: null`) and the id lookup is a total
function `Id -> Option<seq<Details>>`. Storage (`storage.js`, which is not
part of this model) is a record of the two keys the application uses, and is
assumed to read back what was written.

Behaviours of the code that are easy to miss; the model follows the code:

- The "next" rule follows the FIRST occurrence of the active id. With repeated
  ids the cursor can move backwards and cycle, and the counter can pass the
  list length (`Paging.AdvanceOnDuplicateMovesBack`, `Paging.RepeatedIdsCycle`).
  With two adjacent equal ids the cursor stays on that id for ever and the
  end-of-list notice is never raised (`Paging.AACycle`).
  The counter equals the active drink's 1-based position only when ids are
  distinct (`Paging.WalkDistinct`).
- Rendering throws at the first drink without details. If it is the first drink, the throw happens before the cursor
  reset, so the cursor is left as it was (`Views.ShowCocktails`).
- A card is visible when its id equals the FIRST drink's id, so every
  duplicate of the first id is visible too (`Views.ShowCocktailsCards`).
- Stored preferences are used whenever present, without any well-formedness
  check. A stored cocktail list, even an empty one, is used without refetching
  (`App.InitTrustsCache`).
- A lookup that answers an empty array (rather than `null`) also leaves the
  drink without details, because `drinks[0]` is `undefined`
  (`Retrieval.DetailsFrom`).
- The preferences view assigns the stored limit to the range input as it is;
  a browser clamps what the slider shows to 1..100, while the label shows the
  value unclamped (`Views.ShowPreferences` records the assigned value).
- Nothing in the code keeps the limit inside the 1..100 bounds. Only the
  browser's range input does that.

Modelling choice for absent details: ingredient extraction takes a present
`Details` record. The rendering functions `Views.CardsFrom` and
`Views.ShowCocktails` model the `TypeError` on an absent record as rendering
stopping there, with a `failed` flag.

## Model

| member | source | states |
|---|---|---|
| Constants.Categories | js/constants.js:4 | there are exactly 11 categories and they are pairwise distinct |
| Constants.AmountOfQuestions | js/constants.js:5 | the amount bounds satisfy 1 <= min <= max |
| Constants.DefaultPreferences | js/constants.js:7-10 | the default category is one of the categories and the default limit lies within the amount bounds |
| App.LoadPreferences | js/app.js:7 | preferences come from storage when present, otherwise they are the defaults |
| Ingredients.IngredientsFrom | js/app.js:163-167 | the scan from slot k yields at most 16 - k entries, none of them empty |
| Ingredients.Extract | js/app.js:163-167 | a drink's ingredient list has at most 15 entries, none of them empty |
| Ingredients.FilledSlotsFrom | js/app.js:164-165 | reference description: the truthy slot numbers from k to 15, strictly increasing, each one filled, and every filled slot included |
| Ingredients.IngredientsFromMatchesSlots | js/app.js:163-167 | the scan yields exactly the values of the filled slots, one per slot, in slot order |
| Ingredients.ExtractSpec | js/app.js:163-167 | the extracted list has at most 15 non-empty entries; it is the values of exactly the filled slots 1..15 in increasing slot order |
| Ingredients.IgnoresSlotsPastFifteen | js/app.js:164 | fields after `strIngredient15` never affect the list |
| Retrieval.Truncate | js/app.js:111 | the kept entries are a prefix of the listing of length min(listing length, limit) |
| Retrieval.DetailsFrom | js/app.js:117-118 | a lookup yields details exactly when it returned a non-empty array, and then they are its first record |
| Retrieval.EnrichAll | js/app.js:114-119 | enrichment keeps length, order, ids and names; an entry whose lookup is `null` has no details |
| Retrieval.FetchCocktails | js/app.js:105-125 | the fetch fails exactly when the listing is `null`; on success it has at most `limit` entries and no more than the listing |
| Retrieval.EnrichAllKeepsEntries | js/app.js:114-119 | dropping the details of the enriched list gives back the kept entries exactly |
| Retrieval.EnrichAllDetails | js/app.js:114-119 | each item's details are determined by its own lookup alone |
| Retrieval.FetchCocktailsSpec | js/app.js:111-119 | the fetched list has length min(listing length, limit), is the listing's prefix in order, and each entry is enriched by its own lookup |
| Retrieval.FetchFillsLimit | js/app.js:111 | when the listing has at least `limit` entries, exactly `limit` are returned |
| Retrieval.BeerLimitThree | js/app.js:111 | five entries with limit 3 give exactly the first three, in order |
| Retrieval.MissingSecondDetails | js/app.js:114-119 | a `null` lookup for the second of three entries keeps all three; only the second lacks details |
| Paging.Advance | js/app.js:82-102 | "next" either raises the end-of-list notice and keeps the cursor, or raises the counter by one and activates an entry whose predecessor holds the active id |
| Paging.FindFrom | js/app.js:82-88 | `find` returns the first index whose predecessor has the active id, or nothing when there is none |
| Paging.FirstIndexFrom | js/app.js:85 | reference definition: the first position holding a given id |
| Paging.Click | js/app.js:79 | clicks on anything other than the "next" button change nothing and raise no notice |
| Paging.FindAfterFirstOccurrence | js/app.js:82-88 | when the first occurrence j of the active id is not last, `find` returns j + 1 |
| Paging.FindNoneWithoutSuccessor | js/app.js:82-88 | when the active id is absent or first occurs at the last entry, `find` returns nothing |
| Paging.AdvanceMoves | js/app.js:82-93 | with a successor, the entry after the first occurrence becomes active and the counter rises by exactly 1 |
| Paging.AdvanceStopsIffNoSuccessor | js/app.js:82-102 | "next" changes nothing and raises the notice if and only if the active id is null, unknown, or first found at the last entry |
| Paging.FirstIndexOfDistinct | js/app.js:85 | with distinct ids, the first occurrence of the k-th id is k |
| Paging.WalkDistinct | js/app.js:82-93 | with distinct ids, k clicks from the reset cursor (k <= N - 1) give activeId = list[k].id and counter = k + 1 |
| Paging.AdvanceAtLastDistinct | js/app.js:90-102 | with distinct ids, the N-th click is a no-op that raises the end-of-list notice |
| Paging.AdvanceOnDuplicateMovesBack | js/app.js:82-93 | if the active id also occurs at an earlier index j, "next" succeeds and moves to the entry after the FIRST occurrence f of that id (f <= j), with the counter raised by exactly one |
| Paging.ABACycle | js/app.js:82-93 | on any list whose first ids are a, b, a (a != b), every click succeeds, the cursor alternates a/b for ever and the counter is n + 1 after n clicks |
| Paging.AACycle | js/app.js:82-93 | with two adjacent equal ids at the start, the cursor never leaves that id, no click ever raises the end-of-list notice, and the counter is n + 1 after n clicks |
| Paging.RepeatedIdsCycle | js/app.js:82-93 | the list a, b, a, c has a repeated id, and on it the cursor alternates a/b for ever, the counter grows past the length, and c is never shown |
| Views.ShowComponent | js/app.js:128-130 | exactly the components whose id is the target are displayed; none are added, dropped or reordered |
| Views.ShowComponentIdempotent | js/app.js:128-130 | showing a component twice is the same as showing it once |
| Views.ShowComponentExclusive | js/app.js:128-130 | with distinct component ids, at most one component is displayed, and exactly one when some component has the target id |
| Views.ShowPreferences | js/app.js:142-154 | one option per category in list order, selected iff it equals the preferred category; the slider is given the bounds and the limit is assigned as its value and label |
| Views.ShowPreferencesSelectsOne | js/app.js:144-147 | exactly one option is selected when the preferred category is a known one, and none otherwise |
| Views.CardsFrom | js/app.js:161-187 | cards are built for the drinks in order, one per drink, stopping at the first drink without details |
| Views.ShowCocktails | js/app.js:155-188 | rendering a list whose first drink has details resets the cursor to (first id, 1); otherwise the cursor is kept; the header total is the list length |
| Views.ShowCocktailsCards | js/app.js:155-187 | cards are the drinks before the first one without details, and the drink right after the last card lacks details; each card carries its drink's id, name, instructions, thumbnail and extracted ingredients; rendering fails iff some drink lacks details; a card is visible iff its id is the first drink's id |
| Views.ShowCocktailsOneVisible | js/app.js:170-177 | with distinct ids, exactly the first card is visible |
| App.Navigate | js/app.js:126-141 | visibility follows the target; "cocktails" runs the cocktails renderer (cursor and view from it), "preferences" runs the preferences renderer with the cursor kept, any other target changes only visibility; preferences, list, storage and navigation are kept; with no list loaded the cocktails renderer changes nothing |
| App.Init | js/app.js:5-18 | start-up loads the stored or default preferences, shows the preferences view and leaves a null cursor; a stored list is used as it is; otherwise the fetched list is installed and stored, and a rejected fetch leaves the state set up so far with no list and storage untouched |
| App.Submit | js/app.js:33-50 | submit replaces and stores the preferences; a successful fetch installs and stores the new list; a failed fetch keeps the old list; components, cursor, navigation and views are unchanged |
| App.NavClick | js/app.js:59-74 | after a navigation click exactly the clicked link is active, and the clicked link's component is shown |
| App.CocktailClick | js/app.js:77-103 | only the cursor can change; with no list loaded or a target other than "next" nothing happens; "next" raises the notice iff the active id is null, absent, or first found at the last entry, and then changes nothing; otherwise the entry after the first occurrence becomes active and the counter rises by one |
| App.ClickNextFollowsWalk | js/app.js:77-93 | n clicks on "next" change only the cursor, exactly as n steps of the pagination rule |
| App.CocktailClickMovesOnlyCursor | js/app.js:77-103 | a click changes nothing but the cursor, and nothing at all when the end-of-list notice is raised |
| App.NavigateIdempotent | js/app.js:126-141 | navigating to the same component twice gives the same state as once |
| App.NavClickIdempotent | js/app.js:59-74 | clicking the same navigation link twice gives the same state as once |
| App.SubmitThenInitKeepsPreferences | js/app.js:40-44 | the preferences stored by a submit are the ones the next start-up loads, whether or not its fetch succeeds |
| App.InitTrustsCache | js/app.js:15 | a stored list is used at start-up regardless of the service's current answers |
| App.FreshSessionDefaults | js/app.js:7 | with empty storage the preferences are Beer/10 and only the "Beer" option is selected, even when the start-up fetch rejects |
| App.BrowseDistinct | js/app.js:82-93 | after entering the cocktails view of a distinct-id list whose first drink has details (even if rendering threw at a later drink), k clicks on "next" show the k-th drink with counter k + 1 and change nothing else |

## Left out

- Network I/O (`fetch`, `response.json()`, the two API URLs): responses are parameters. A network or JSON failure of the listing request is modelled only as a `null` listing. A rejected lookup request (js/app.js:115-116) rejects the whole `fetchCocktails`; the `lookup` parameter cannot fail, so that case is represented only by passing a `null` listing.
- `readFromStorage` / `writeToStorage`: `storage.js` is not part of this model. Storage is a record assumed to read back what was written.
- Markup: the `innerHTML` templates, the `alert` text, and the range-input label update (js/app.js:53-56) are rendering only.
- The card visibility toggle and counter label update of the "next" handler (js/app.js:96-98): DOM queries, left out.
- The race between overlapping submits, and events handled while start-up still awaits its fetch (js/app.js:15, 47-49): asynchronous ordering is not modelled.
- App.Init: after a rejected start-up fetch the source leaves `activeCocktailId` and `counter` undefined rather than `null`; the model uses `null` for both, which behaves the same, since no id equals either and `counter++` is only reached after a reset.
- The string-to-number coercion of the form's `amount` (js/app.js:42): `limit` is a natural number.
- The dead check `data.drinks.length < 0` (js/app.js:117): it never holds and is omitted.
- Ingredient fields holding non-string JSON values: slots are optional strings.
- Retrieval.FetchCocktails: network and parse errors are not told apart; every failure is `NoListing`.

=== FILE: app.dfy ===
/** The `app` object of js/app.js as an immutable state and one transition
    per event handler: start-up (`init`), form submit, a primary navigation
    click and a click in the cocktails view. Storage is a record of the two
    keys the application uses; the catalog responses are parameters. */
module App {
  import opened Basics
  import opened Drinks
  import opened Constants
  import opened Retrieval
  import opened Paging
  import opened Views

  /** The two storage keys, `"preferences"` and `"cocktails"`; `None` is a
      key that was never written. A value reads back as it was written. */
  datatype Storage = Storage(preferences: Option<Preferences>, cocktails: Option<seq<Item>>)

  /** A primary navigation link: its `data-href` target and whether it
      carries the `active` class. */
  datatype NavLink = NavLink(href: string, active: bool)

  /** `cocktails` is `None` while `this.cocktails` is undefined, which it
      stays after a rejected start-up fetch until a submit succeeds. */
  datatype App = App(
    prefs: Preferences,
    cocktails: Option<seq<Item>>,
    pager: Pager,
    components: seq<Component>,
    nav: seq<NavLink>,
    preferencesView: Option<PreferencesView>,
    cocktailsView: Option<CocktailsView>,
    storage: Storage)

  /** The state `init` leaves behind, and the error its promise rejects with
      when the start-up fetch fails. */
  datatype Startup = Startup(app: App, rejected: Option<FetchError>)

  /** A handled click in the cocktails view: the new state and whether the
      end-of-list notice was raised. */
  datatype Handled = Handled(app: App, notice: bool)

  /** `readFromStorage("preferences") || defaultPreferences`. */
  function LoadPreferences(stored: Option<Preferences>): (p: Preferences)
    ensures stored.Some? ==> p == stored.value
    ensures stored.None? ==> p == DefaultPreferences()
  {
    stored.GetOr(DefaultPreferences())
  }

  /** `showComponent(target)`: visibility, then the matching renderer. With
      no list loaded, `showCocktails` throws on `this.cocktails.length` before
      it changes anything. */
  function Navigate(app: App, target: string): (r: App)
    ensures r.components == ShowComponent(app.components, target)
    ensures r.prefs == app.prefs && r.cocktails == app.cocktails && r.storage == app.storage && r.nav == app.nav
    ensures target == "cocktails" && app.cocktails.Some? ==>
      && r.pager == ShowCocktails(app.cocktails.value, app.pager).pager
      && r.cocktailsView == Some(ShowCocktails(app.cocktails.value, app.pager).view)
      && r.preferencesView == app.preferencesView
    ensures target == "preferences" ==>
      r.pager == app.pager && r.preferencesView == Some(ShowPreferences(app.prefs)) && r.cocktailsView == app.cocktailsView
    ensures target != "preferences" && (target != "cocktails" || app.cocktails.None?) ==>
      r == app.(components := ShowComponent(app.components, target))
  {
    var shown := app.(components := ShowComponent(app.components, target));
    if target == "cocktails" then
      match app.cocktails
      case None => shown
      case Some(items) =>
        var s := ShowCocktails(items, app.pager);
        shown.(pager := s.pager, cocktailsView := Some(s.view))
    else if target == "preferences" then
      shown.(preferencesView := Some(ShowPreferences(app.prefs)))
    else shown
  }

  /** `init`: preferences from storage or the default, the preferences view
      shown, the cocktails from storage or else freshly fetched (and then
      stored), and a `null` cursor. When the fetch rejects, the steps before
      the `await` have already run; the list stays undefined and so do the
      cursor fields, which behave exactly like `null` ones here (no id equals
      them, so `counter++` is never reached before a reset). */
  function Init(storage: Storage, components: seq<Component>, nav: seq<NavLink>,
                listing: Option<seq<Summary>>, lookup: Id -> Lookup): (r: Startup)
    ensures r.app.prefs == LoadPreferences(storage.preferences)
    ensures r.app.pager == Initial()
    ensures r.app.components == ShowComponent(components, "preferences") && r.app.nav == nav
    ensures r.app.preferencesView == Some(ShowPreferences(r.app.prefs)) && r.app.cocktailsView.None?
    ensures r.app.storage.preferences == storage.preferences
    ensures storage.cocktails.Some? ==>
      r.rejected.None? && r.app.cocktails == storage.cocktails && r.app.storage == storage
    ensures storage.cocktails.None? ==> (r.rejected.Some? <==> listing.None?)
    ensures storage.cocktails.None? && listing.Some? ==>
      && r.app.cocktails == Some(FetchCocktails(r.app.prefs, listing, lookup).value)
      && r.app.storage.cocktails == r.app.cocktails
    ensures storage.cocktails.None? && listing.None? ==> r.app.cocktails.None? && r.app.storage == storage
  {
    var prefs := LoadPreferences(storage.preferences);
    var app := Navigate(App(prefs, None, Initial(), components, nav, None, None, storage), "preferences");
    match storage.cocktails
    case Some(cached) => Startup(app.(cocktails := Some(cached)), None)
    case None =>
      match FetchCocktails(prefs, listing, lookup)
      case Failure(e) => Startup(app, Some(e))
      case Success(fetched) =>
        Startup(app.(cocktails := Some(fetched), storage := app.storage.(cocktails := Some(fetched))), None)
  }

  /** The form submit handler: the preferences are replaced and stored, then
      the list is refetched with them and installed and stored on completion;
      a rejected fetch leaves the old list (and the old stored list) in place.
      Nothing on screen changes. */
  function Submit(app: App, category: string, limit: nat,
                  listing: Option<seq<Summary>>, lookup: Id -> Lookup): (r: App)
    ensures r.prefs == Preferences(category, limit)
    ensures r.storage.preferences == Some(r.prefs)
    ensures r.components == app.components && r.pager == app.pager && r.nav == app.nav
    ensures r.preferencesView == app.preferencesView && r.cocktailsView == app.cocktailsView
    ensures listing.Some? ==>
      r.cocktails == Some(FetchCocktails(r.prefs, listing, lookup).value) && r.storage.cocktails == r.cocktails
    ensures listing.None? ==> r.cocktails == app.cocktails && r.storage.cocktails == app.storage.cocktails
  {
    var prefs := Preferences(category, limit);
    var app := app.(prefs := prefs, storage := app.storage.(preferences := Some(prefs)));
    match FetchCocktails(prefs, listing, lookup)
    case Failure(_) => app
    case Success(fetched) => app.(cocktails := Some(fetched), storage := app.storage.(cocktails := Some(fetched)))
  }

  /** The primary navigation handler for the `k`-th link: only that link is
      marked active, then its target component is shown. */
  function NavClick(app: App, k: nat): (r: App)
    requires k < |app.nav|
    ensures |r.nav| == |app.nav|
    ensures forall i :: 0 <= i < |r.nav| ==> r.nav[i].href == app.nav[i].href && (r.nav[i].active <==> i == k)
    ensures r == Navigate(app.(nav := r.nav), app.nav[k].href)
    ensures r.components == ShowComponent(app.components, app.nav[k].href)
  {
    var nav := seq(|app.nav|, i requires 0 <= i < |app.nav| => NavLink(app.nav[i].href, i == k));
    Navigate(app.(nav := nav), app.nav[k].href)
  }

  /** The click handler of the cocktails component (state only; the card
      visibility toggle is rendering). With no list loaded, `find` throws and
      nothing happens. */
  function CocktailClick(app: App, targetId: string): (h: Handled)
    ensures h.app == app.(pager := h.app.pager)
    ensures app.cocktails.None? || targetId != "next" ==> h == Handled(app, false)
    ensures h.notice ==> h.app == app
    ensures app.cocktails.Some? && targetId == "next" ==>
      var items, p := app.cocktails.value, app.pager;
      && (h.notice <==>
            || p.activeId.None?
            || FirstIndexOf(items, p.activeId.value).None?
            || FirstIndexOf(items, p.activeId.value) == Some(|items| - 1))
      && (!h.notice ==>
            h.app.pager == Pager(Some(items[FirstIndexOf(items, p.activeId.value).value + 1].id),
                                 Some(Count(p.counter) + 1)))
  {
    match app.cocktails
    case None => Handled(app, false)
    case Some(items) =>
      var step := Click(items, app.pager, targetId);
      AdvanceStopsIffNoSuccessor(items, app.pager);
      if targetId == "next" && !step.notice then
        var j := FirstIndexOf(items, app.pager.activeId.value).value;
        AdvanceMoves(items, app.pager, j);
        Handled(app.(pager := step.pager), step.notice)
      else
        Handled(app.(pager := step.pager), step.notice)
  }

  /** `n` clicks on the "next" button. */
  function ClickNext(app: App, n: nat): App
    decreases n
  {
    if n == 0 then app else ClickNext(CocktailClick(app, "next").app, n - 1)
  }

  /** Clicking "next" changes nothing but the cursor, and moves the cursor as
      the pagination rule does. */
  lemma {:induction false} ClickNextFollowsWalk(app: App, items: seq<Item>, n: nat)
    requires app.cocktails == Some(items)
    ensures ClickNext(app, n) == app.(pager := Walk(items, app.pager, n))
    decreases n
  {
    if n > 0 {
      var next := CocktailClick(app, "next").app;
      assert next == app.(pager := Advance(items, app.pager).pager);
      ClickNextFollowsWalk(next, items, n - 1);
    }
  }

  /** A click in the cocktails view moves only the cursor, and leaves it
      where it was exactly when the end-of-list notice is raised by "next". */
  lemma CocktailClickMovesOnlyCursor(app: App, targetId: string)
    ensures CocktailClick(app, targetId).app == app.(pager := CocktailClick(app, targetId).app.pager)
    ensures CocktailClick(app, targetId).notice ==> CocktailClick(app, targetId).app == app
  {
    if app.cocktails.Some? {
      AdvanceStopsIffNoSuccessor(app.cocktails.value, app.pager);
    }
  }

  /** Navigating to a component twice in a row leaves the same state as
      navigating once. */
  lemma NavigateIdempotent(app: App, target: string)
    ensures Navigate(Navigate(app, target), target) == Navigate(app, target)
  {
    ShowComponentIdempotent(app.components, target);
  }

  /** Clicking the same navigation link twice equals clicking it once. */
  lemma NavClickIdempotent(app: App, k: nat)
    requires k < |app.nav|
    ensures NavClick(NavClick(app, k), k) == NavClick(app, k)
  {
    var once := NavClick(app, k);
    assert once.nav == seq(|app.nav|, i requires 0 <= i < |app.nav| => NavLink(app.nav[i].href, i == k));
    assert once.nav[k].href == app.nav[k].href;
    NavigateIdempotent(app.(nav := once.nav), app.nav[k].href);
  }

  /** Preferences written by a submit are the ones the next start-up reads,
      whether or not that start-up's fetch succeeds. */
  lemma SubmitThenInitKeepsPreferences(app: App, category: string, limit: nat,
                                       listing: Option<seq<Summary>>, lookup: Id -> Lookup,
                                       components: seq<Component>, nav: seq<NavLink>,
                                       listing': Option<seq<Summary>>, lookup': Id -> Lookup)
    ensures Init(Submit(app, category, limit, listing, lookup).storage, components, nav, listing', lookup').app.prefs
      == Preferences(category, limit)
  {
  }

  /** A stored list is used at start-up as it is, whatever preferences it was
      fetched under and whatever the service would now return. */
  lemma InitTrustsCache(storage: Storage, components: seq<Component>, nav: seq<NavLink>,
                        listing: Option<seq<Summary>>, lookup: Id -> Lookup,
                        listing': Option<seq<Summary>>, lookup': Id -> Lookup)
    requires storage.cocktails.Some?
    ensures Init(storage, components, nav, listing, lookup) == Init(storage, components, nav, listing', lookup')
  {
  }

  /** A fresh session shows category "Beer" (its option the only one
      selected) and limit 10, even when the start-up fetch rejects. */
  lemma FreshSessionDefaults(components: seq<Component>, nav: seq<NavLink>,
                             listing: Option<seq<Summary>>, lookup: Id -> Lookup)
    ensures var app := Init(Storage(None, None), components, nav, listing, lookup).app;
      && app.prefs == Preferences("Beer", 10)
      && app.preferencesView.Some?
      && app.preferencesView.value.assignedAmount == 10
      && forall i :: 0 <= i < |Categories()| ==>
           (app.preferencesView.value.options[i].selected <==> Categories()[i] == "Beer")
  {
  }

  /** Entering the cocktails view for a distinct-id list whose first drink
      has details (later drinks may lack them, so rendering may have thrown)
      and then clicking "next" `k` times (k < N) shows the
      `k`-th drink with counter k + 1 and changes nothing else. */
  lemma BrowseDistinct(app: App, items: seq<Item>, k: nat)
    requires app.cocktails == Some(items)
    requires DistinctIds(items) && k < |items| && items[0].details.Some?
    ensures var entered := Navigate(app, "cocktails");
      ClickNext(entered, k) == entered.(pager := Pager(Some(items[k].id), Some(k + 1)))
  {
    var entered := Navigate(app, "cocktails");
    ClickNextFollowsWalk(entered, items, k);
    WalkDistinct(items, k);
  }
}

=== FILE: basics.dfy ===
/** Small vocabulary shared by every module of the model. */
module Basics {

  /** A JavaScript value that may be `null` or `undefined` (`None`). */
  datatype Option<T> = None | Some(value: T) {

    /** `a || fallback` for an `a` that is an object or absent. */
    function GetOr(fallback: T): (r: T)
      ensures Some? ==> r == value
      ensures None? ==> r == fallback
    {
      if Some? then value else fallback
    }
  }

  /** The outcome of an operation that may reject. */
  datatype Result<T, E> = Success(value: T) | Failure(error: E)

  /** No value occurs twice. */
  predicate Distinct<T(==)>(s: seq<T>) {
    forall i, j :: 0 <= i < j < |s| ==> s[i] != s[j]
  }
}

=== FILE: constants.dfy ===
/** The configuration of js/constants.js: the selectable categories, the
    bounds of the amount slider and the default preferences. The two API URLs
    belong to the network layer and are not part of the model. */
module Constants {
  import opened Basics

  /** The user's choice: a category name and how many drinks to fetch. */
  datatype Preferences = Preferences(category: string, limit: nat)

  /** Inclusive bounds of the amount slider. */
  datatype Bounds = Bounds(min: nat, max: nat)

  /** The categories offered in the preferences form, in display order. */
  function Categories(): (cs: seq<string>)
    ensures |cs| == 11
    ensures Distinct(cs)
  {
    ["Ordinary Drink", "Cocktail", "Milk / Float / Shake", "Other/Unknown", "Cocoa", "Shot",
     "Coffee / Tea", "Homemade Liqueur", "Punch / Party Drink", "Beer", "Soft Drink / Soda"]
  }

  /** Bounds of the "amount" range input. */
  function AmountOfQuestions(): (b: Bounds)
    ensures 1 <= b.min <= b.max
  {
    Bounds(1, 100)
  }

  /** Used when storage holds no preferences. */
  function DefaultPreferences(): (p: Preferences)
    ensures p.category in Categories()
    ensures AmountOfQuestions().min <= p.limit <= AmountOfQuestions().max
  {
    Preferences("Beer", 10)
  }
}

=== FILE: drinks.dfy ===
/** The records that flow through the application: what the catalog service
    returns for a category query, what its id lookup returns, and the item
    the application keeps once both have been combined. */
module Drinks {
  import opened Basics

  /** `idDrink`: an opaque string identifier chosen by the catalog service;
      ids are only ever compared for equality. */
  datatype Id = Id(text: string)

  /** One entry of the category listing (`idDrink`, `strDrink`). */
  datatype Summary = Summary(id: Id, name: string)

  /** The record returned by the id lookup: instructions, thumbnail URL and the
      positional ingredient fields `strIngredient1`, `strIngredient2`, ...;
      `slots[k - 1]` holds `strIngredient<k>`, `None` standing for `null` or a
      missing field. */
  datatype Details = Details(instructions: string, thumb: string, slots: seq<Option<string>>)

  /** A listing entry after enrichment; `details` is absent when the lookup
      produced no record. */
  datatype Item = Item(id: Id, name: string, details: Option<Details>)

  /** The `drinks` field of a lookup response: `null` or an array of records. */
  type Lookup = Option<seq<Details>>

  /** The listing entry an item was built from. */
  function Summarize(item: Item): Summary {
    Summary(item.id, item.name)
  }

  function Summaries(items: seq<Item>): (r: seq<Summary>)
    ensures |r| == |items|
    ensures forall i :: 0 <= i < |items| ==> r[i] == Summarize(items[i])
  {
    seq(|items|, i requires 0 <= i < |items| => Summarize(items[i]))
  }

  /** No two items share an id (what the catalog service delivers in practice,
      but nothing in the application checks it). */
  predicate DistinctIds(items: seq<Item>) {
    Distinct(Ids(items))
  }

  /** The ids of a list of items, in order. */
  function Ids(items: seq<Item>): (ids: seq<Id>)
    ensures |ids| == |items|
    ensures forall i :: 0 <= i < |items| ==> ids[i] == items[i].id
  {
    seq(|items|, i requires 0 <= i < |items| => items[i].id)
  }
}

=== FILE: ingredients.dfy ===
/** Ingredient extraction in `showCocktails`: the positional fields
    `strIngredient1` .. `strIngredient15` of a lookup record are scanned in
    order and every truthy one is kept. */
module Ingredients {
  import opened Basics
  import opened Drinks

  /** Number of ingredient slots the application scans. */
  const SlotCount: nat := 15

  /** `details["strIngredient" + k]`; a field the record lacks reads as absent. */
  function SlotValue(d: Details, k: nat): Option<string>
    requires 1 <= k
  {
    if k <= |d.slots| then d.slots[k - 1] else None
  }

  /** JavaScript truthiness of a slot: `null`, `undefined` and `""` are falsy. */
  predicate Filled(d: Details, k: nat)
    requires 1 <= k
  {
    SlotValue(d, k).Some? && SlotValue(d, k).value != ""
  }

  /** The loop of `showCocktails` from slot `k` to slot 15. */
  function IngredientsFrom(d: Details, k: nat): (r: seq<string>)
    requires 1 <= k <= SlotCount + 1
    ensures |r| <= SlotCount + 1 - k
    ensures forall i :: 0 <= i < |r| ==> r[i] != ""
    decreases SlotCount + 1 - k
  {
    if k > SlotCount then []
    else if Filled(d, k) then [SlotValue(d, k).value] + IngredientsFrom(d, k + 1)
    else IngredientsFrom(d, k + 1)
  }

  /** The ingredient list rendered for one drink. */
  function Extract(d: Details): (r: seq<string>)
    ensures |r| <= SlotCount
    ensures forall i :: 0 <= i < |r| ==> r[i] != ""
  {
    IngredientsFrom(d, 1)
  }

  /** Independent description of what the scan keeps: the numbers of the
      filled slots between `k` and 15, in increasing order. */
  function FilledSlotsFrom(d: Details, k: nat): (ks: seq<nat>)
    requires 1 <= k <= SlotCount + 1
    ensures forall i :: 0 <= i < |ks| ==> k <= ks[i] <= SlotCount && Filled(d, ks[i])
    ensures forall i, j :: 0 <= i < j < |ks| ==> ks[i] < ks[j]
    ensures forall s :: k <= s <= SlotCount && Filled(d, s) ==> s in ks
    decreases SlotCount + 1 - k
  {
    if k > SlotCount then []
    else if Filled(d, k) then [k] + FilledSlotsFrom(d, k + 1)
    else FilledSlotsFrom(d, k + 1)
  }

  /** The scan from slot `k` yields, in order, the values of exactly the
      filled slots from `k` on. */
  lemma {:induction false} IngredientsFromMatchesSlots(d: Details, k: nat)
    requires 1 <= k <= SlotCount + 1
    ensures |IngredientsFrom(d, k)| == |FilledSlotsFrom(d, k)|
    ensures forall i :: 0 <= i < |FilledSlotsFrom(d, k)| ==>
      IngredientsFrom(d, k)[i] == SlotValue(d, FilledSlotsFrom(d, k)[i]).value
    decreases SlotCount + 1 - k
  {
    if k <= SlotCount {
      IngredientsFromMatchesSlots(d, k + 1);
      var rest, ks := IngredientsFrom(d, k + 1), FilledSlotsFrom(d, k + 1);
      if Filled(d, k) {
        assert IngredientsFrom(d, k) == [SlotValue(d, k).value] + rest;
        assert FilledSlotsFrom(d, k) == [k] + ks;
        forall i | 0 <= i < |ks| + 1
          ensures IngredientsFrom(d, k)[i] == SlotValue(d, FilledSlotsFrom(d, k)[i]).value
        {
          if i > 0 {
            assert IngredientsFrom(d, k)[i] == rest[i - 1];
            assert FilledSlotsFrom(d, k)[i] == ks[i - 1];
          }
        }
      } else {
        assert IngredientsFrom(d, k) == rest;
        assert FilledSlotsFrom(d, k) == ks;
      }
    }
  }

  /** The extracted list has at most 15 entries, each non-empty, and it is the
      sequence of filled-slot values in increasing slot order: every filled
      slot in 1..15 contributes once and nothing else contributes. */
  lemma ExtractSpec(d: Details)
    ensures |Extract(d)| <= SlotCount
    ensures forall i :: 0 <= i < |Extract(d)| ==> Extract(d)[i] != ""
    ensures var ks := FilledSlotsFrom(d, 1);
      && |Extract(d)| == |ks|
      && (forall i :: 0 <= i < |ks| ==> 1 <= ks[i] <= SlotCount && Filled(d, ks[i])
                                         && Extract(d)[i] == SlotValue(d, ks[i]).value)
      && (forall i, j :: 0 <= i < j < |ks| ==> ks[i] < ks[j])
      && (forall s :: 1 <= s <= SlotCount && Filled(d, s) ==> s in ks)
  {
    IngredientsFromMatchesSlots(d, 1);
  }

  /** Slots past the fifteenth never reach the list. */
  lemma {:induction false} IgnoresSlotsPastFifteen(d: Details, extra: seq<Option<string>>, k: nat)
    requires |d.slots| >= SlotCount
    requires 1 <= k <= SlotCount + 1
    ensures IngredientsFrom(Details(d.instructions, d.thumb, d.slots + extra), k) == IngredientsFrom(d, k)
    decreases SlotCount + 1 - k
  {
    if k <= SlotCount {
      var d' := Details(d.instructions, d.thumb, d.slots + extra);
      assert SlotValue(d', k) == SlotValue(d, k);
      IgnoresSlotsPastFifteen(d, extra, k + 1);
    }
  }
}

=== FILE: pager.dfy ===
/** The pagination cursor of the cocktails view: the id of the visible drink
    and a 1-based counter, both `null` until the view is first rendered. The
    "next" handler looks the successor up by its predecessor's id, not by
    position. */
module Paging {
  import opened Basics
  import opened Drinks

  datatype Pager = Pager(activeId: Option<Id>, counter: Option<int>)

  /** A handled click: the new cursor, and whether the end-of-list notice
      ("Laatste cocktail") was raised. */
  datatype Step = Step(pager: Pager, notice: bool)

  /** The cursor after `init`: both fields `null`. */
  function Initial(): Pager {
    Pager(None, None)
  }

  /** The cursor `showCocktails` installs: the first drink, counter 1. */
  function Reset(items: seq<Item>): Pager
    requires |items| > 0
  {
    Pager(Some(items[0].id), Some(1))
  }

  /** The number `counter++` starts from: `null` counts as 0. */
  function Count(c: Option<int>): int {
    c.GetOr(0)
  }

  /** The predicate handed to `find`: the entry before index `i` exists and its
      id equals the active id (a `null` active id equals no id). */
  predicate PredecessorIsActive(items: seq<Item>, i: nat, active: Option<Id>)
    requires i < |items|
  {
    1 <= i && active == Some(items[i - 1].id)
  }

  /** `cocktails.find(...)` scanning from index `i`: the first index whose
      predecessor is active. */
  function FindFrom(items: seq<Item>, active: Option<Id>, i: nat): (r: Option<nat>)
    requires i <= |items|
    ensures r.Some? ==> i <= r.value < |items| && PredecessorIsActive(items, r.value, active)
    ensures r.Some? ==> forall k :: i <= k < r.value ==> !PredecessorIsActive(items, k, active)
    ensures r.None? ==> forall k :: i <= k < |items| ==> !PredecessorIsActive(items, k, active)
    decreases |items| - i
  {
    if i == |items| then None
    else if PredecessorIsActive(items, i, active) then Some(i)
    else FindFrom(items, active, i + 1)
  }

  /** Reference definition: the first position at or after `i` holding id `a`. */
  function FirstIndexFrom(items: seq<Item>, a: Id, i: nat): (r: Option<nat>)
    requires i <= |items|
    ensures r.Some? ==> i <= r.value < |items| && items[r.value].id == a
    ensures r.Some? ==> forall k :: i <= k < r.value ==> items[k].id != a
    ensures r.None? ==> forall k :: i <= k < |items| ==> items[k].id != a
    decreases |items| - i
  {
    if i == |items| then None
    else if items[i].id == a then Some(i)
    else FirstIndexFrom(items, a, i + 1)
  }

  /** The first position holding id `a`. */
  function FirstIndexOf(items: seq<Item>, a: Id): Option<nat> {
    FirstIndexFrom(items, a, 0)
  }

  /** The "next" handler once the click is known to be on the button. */
  function Advance(items: seq<Item>, p: Pager): (s: Step)
    ensures s.notice ==> s.pager == p
    ensures !s.notice ==>
      && s.pager.counter == Some(Count(p.counter) + 1)
      && exists i :: 1 <= i < |items| && p.activeId == Some(items[i - 1].id) && s.pager.activeId == Some(items[i].id)
  {
    match FindFrom(items, p.activeId, 0)
    case Some(i) => Step(Pager(Some(items[i].id), Some(Count(p.counter) + 1)), false)
    case None => Step(p, true)
  }

  /** A click anywhere in the cocktails view; only the element with id
      "next" is handled. */
  function Click(items: seq<Item>, p: Pager, targetId: string): (s: Step)
    ensures targetId != "next" ==> s == Step(p, false)
  {
    if targetId != "next" then Step(p, false) else Advance(items, p)
  }

  /** The successor `find` reports is the entry right after the FIRST
      occurrence of the active id... */
  lemma FindAfterFirstOccurrence(items: seq<Item>, a: Id, j: nat)
    requires FirstIndexOf(items, a) == Some(j) && j + 1 < |items|
    ensures FindFrom(items, Some(a), 0) == Some(j + 1)
  {
    assert PredecessorIsActive(items, j + 1, Some(a));
  }

  /** ... and it exists only when that occurrence is not the last entry. */
  lemma FindNoneWithoutSuccessor(items: seq<Item>, a: Id)
    requires FirstIndexOf(items, a).None? || FirstIndexOf(items, a) == Some(|items| - 1)
    ensures FindFrom(items, Some(a), 0).None?
  {
  }

  /** "Next" with a successor: the entry after the first occurrence of the
      active id becomes active and the counter rises by exactly one. */
  lemma AdvanceMoves(items: seq<Item>, p: Pager, j: nat)
    requires p.activeId.Some? && FirstIndexOf(items, p.activeId.value) == Some(j)
    requires j + 1 < |items|
    ensures Advance(items, p) == Step(Pager(Some(items[j + 1].id), Some(Count(p.counter) + 1)), false)
  {
    FindAfterFirstOccurrence(items, p.activeId.value, j);
  }

  /** "Next" without a successor -- no active id, an id not in the list, or
      an id first found at the last entry -- changes nothing and raises the
      end-of-list notice; these are the only cases it does so. */
  lemma AdvanceStopsIffNoSuccessor(items: seq<Item>, p: Pager)
    ensures Advance(items, p) == Step(p, true) <==>
      || p.activeId.None?
      || FirstIndexOf(items, p.activeId.value).None?
      || FirstIndexOf(items, p.activeId.value) == Some(|items| - 1)
    ensures Advance(items, p).notice ==> Advance(items, p).pager == p
  {
    if p.activeId.Some? {
      var a := p.activeId.value;
      match FirstIndexOf(items, a)
      case None => FindNoneWithoutSuccessor(items, a);
      case Some(j) =>
        if j + 1 < |items| {
          FindAfterFirstOccurrence(items, a, j);
        } else {
          FindNoneWithoutSuccessor(items, a);
        }
    }
  }

  /** `n` successive "next" clicks. */
  function Walk(items: seq<Item>, p: Pager, n: nat): Pager
    decreases n
  {
    if n == 0 then p else Walk(items, Advance(items, p).pager, n - 1)
  }

  /** With distinct ids the first occurrence of the `k`-th id is `k`. */
  lemma FirstIndexOfDistinct(items: seq<Item>, k: nat)
    requires DistinctIds(items) && k < |items|
    ensures FirstIndexOf(items, items[k].id) == Some(k)
  {
  }

  /** With distinct ids, `k` clicks after the reset (k at most N - 1) show
      the `k`-th drink with counter k + 1. */
  lemma {:induction false} WalkDistinct(items: seq<Item>, k: nat)
    requires DistinctIds(items) && k < |items|
    ensures Walk(items, Reset(items), k) == Pager(Some(items[k].id), Some(k + 1))
  {
    if k > 0 {
      WalkDistinct(items, k - 1);
      FirstIndexOfDistinct(items, k - 1);
      AdvanceMoves(items, Pager(Some(items[k - 1].id), Some(k)), k - 1);
      WalkLast(items, Reset(items), k - 1);
    }
  }

  /** Splitting off the last click of a walk. */
  lemma {:induction false} WalkLast(items: seq<Item>, p: Pager, n: nat)
    ensures Walk(items, p, n + 1) == Advance(items, Walk(items, p, n)).pager
    decreases n
  {
    if n > 0 {
      WalkLast(items, Advance(items, p).pager, n - 1);
    }
  }

  /** The final click of a distinct-id walk: the last drink has no successor. */
  lemma AdvanceAtLastDistinct(items: seq<Item>)
    requires DistinctIds(items) && |items| > 0
    ensures var p := Walk(items, Reset(items), |items| - 1);
      Advance(items, p) == Step(p, true)
  {
    WalkDistinct(items, |items| - 1);
    FirstIndexOfDistinct(items, |items| - 1);
    AdvanceStopsIffNoSuccessor(items, Walk(items, Reset(items), |items| - 1));
  }

  /** Because the successor is looked up by id, an active id that also occurs
      earlier in the list sends the cursor to the entry after the FIRST
      occurrence of that id, which lies at or before the earlier occurrence's
      successor, while the counter still rises. */
  lemma AdvanceOnDuplicateMovesBack(items: seq<Item>, c: Option<int>, j: nat, m: nat)
    requires j < m < |items| && items[j].id == items[m].id
    ensures var f := FirstIndexOf(items, items[m].id);
      && f.Some? && f.value <= j
      && Advance(items, Pager(Some(items[m].id), c))
         == Step(Pager(Some(items[f.value + 1].id), Some(Count(c) + 1)), false)
  {
    var f := FirstIndexOf(items, items[m].id).value;
    AdvanceMoves(items, Pager(Some(items[m].id), c), f);
  }

  /** A concrete list with a repeated id: a, b, a, c. */
  function RepeatedIds(): seq<Item> {
    [Item(Id("a"), "A", None), Item(Id("b"), "B", None), Item(Id("a"), "A again", None), Item(Id("c"), "C", None)]
  }

  /** The list a, b, a, c does repeat an id. */
  lemma RepeatedIdsRepeat()
    ensures !DistinctIds(RepeatedIds())
  {
    assert Ids(RepeatedIds())[0] == Ids(RepeatedIds())[2];
  }

  /** A list whose first three ids are a, b, a with a != b. */
  predicate StartsABA(items: seq<Item>) {
    |items| >= 3 && items[2].id == items[0].id && items[1].id != items[0].id
  }

  /** One click on such a list: from a to b and from b back to a. */
  lemma ABAStep(items: seq<Item>, c: int)
    requires StartsABA(items)
    ensures Advance(items, Pager(Some(items[0].id), Some(c))).pager == Pager(Some(items[1].id), Some(c + 1))
    ensures Advance(items, Pager(Some(items[1].id), Some(c))).pager == Pager(Some(items[0].id), Some(c + 1))
  {
    assert FirstIndexOf(items, items[0].id) == Some(0);
    assert FirstIndexOf(items, items[1].id) == Some(1);
    AdvanceMoves(items, Pager(Some(items[0].id), Some(c)), 0);
    AdvanceMoves(items, Pager(Some(items[1].id), Some(c)), 1);
  }

  /** On any list starting a, b, a the cursor alternates between the first
      two entries for ever: every click succeeds, the counter grows without
      bound, and no entry after the second is ever shown. */
  lemma {:induction false} ABACycle(items: seq<Item>, n: nat)
    requires StartsABA(items)
    ensures Walk(items, Reset(items), n)
      == Pager(Some(if n % 2 == 0 then items[0].id else items[1].id), Some(n + 1))
  {
    if n > 0 {
      ABACycle(items, n - 1);
      WalkLast(items, Reset(items), n - 1);
      ABAStep(items, n);
    }
  }

  /** Two adjacent entries with the same id: the cursor never leaves that id,
      every click succeeds (no end-of-list notice is ever raised), and the
      counter rises on every click. */
  lemma {:induction false} AACycle(items: seq<Item>, n: nat)
    requires |items| >= 2 && items[1].id == items[0].id
    ensures Walk(items, Reset(items), n) == Pager(Some(items[0].id), Some(n + 1))
    ensures !Advance(items, Walk(items, Reset(items), n)).notice
  {
    assert FirstIndexOf(items, items[0].id) == Some(0);
    if n > 0 {
      AACycle(items, n - 1);
      WalkLast(items, Reset(items), n - 1);
      AdvanceMoves(items, Pager(Some(items[0].id), Some(n)), 0);
    }
    AdvanceMoves(items, Pager(Some(items[0].id), Some(n + 1)), 0);
  }

  /** On a, b, a, c in particular, the counter passes the list length and
      c is never shown. */
  lemma RepeatedIdsCycle(n: nat)
    ensures !DistinctIds(RepeatedIds())
    ensures var items := RepeatedIds();
      Walk(items, Reset(items), n) == Pager(Some(if n % 2 == 0 then Id("a") else Id("b")), Some(n + 1))
  {
    var items := RepeatedIds();
    RepeatedIdsRepeat();
    assert StartsABA(items);
    ABACycle(items, n);
  }
}

=== FILE: retrieval.dfy ===
/** `fetchCocktails`: the category listing is cut to the preferred number of
    entries, then every kept entry is enriched, one lookup at a time, with the
    first record its id lookup returns. The responses of the catalog service
    are parameters; the HTTP requests themselves are not modelled. */
module Retrieval {
  import opened Basics
  import opened Drinks
  import opened Constants

  /** The listing's `drinks` field was `null`, so `data.drinks.slice` throws
      and the returned promise rejects. */
  datatype FetchError = NoListing

  function Min(a: nat, b: nat): nat {
    if a <= b then a else b
  }

  /** `drinks.slice(0, limit)`: never pads, keeps the service's order. */
  function Truncate(listing: seq<Summary>, limit: nat): (r: seq<Summary>)
    ensures |r| == Min(|listing|, limit)
    ensures r <= listing
  {
    if |listing| <= limit then listing else listing[..limit]
  }

  /** What one lookup response leaves in `drink.details`: nothing when
      `drinks` is `null` (the loop `continue`s), otherwise `drinks[0]`, which
      is `undefined` for an empty array. */
  function DetailsFrom(response: Lookup): (d: Option<Details>)
    ensures d.Some? <==> response.Some? && |response.value| > 0
    ensures d.Some? ==> d.value == response.value[0]
  {
    match response
    case None => None
    case Some(records) => if |records| == 0 then None else Some(records[0])
  }

  function Enrich(s: Summary, lookup: Id -> Lookup): Item {
    Item(s.id, s.name, DetailsFrom(lookup(s.id)))
  }

  /** The sequential enrichment loop over the kept entries. */
  function EnrichAll(entries: seq<Summary>, lookup: Id -> Lookup): (items: seq<Item>)
    ensures |items| == |entries|
    ensures forall i :: 0 <= i < |entries| ==>
      && items[i].id == entries[i].id
      && items[i].name == entries[i].name
      && (lookup(entries[i].id).None? ==> items[i].details.None?)
  {
    if |entries| == 0 then []
    else [Enrich(entries[0], lookup)] + EnrichAll(entries[1..], lookup)
  }

  /** The whole of `fetchCocktails` after its requests have been answered:
      `listing` is the category response's `drinks` field, `lookup` answers
      each id lookup. */
  function FetchCocktails(prefs: Preferences, listing: Option<seq<Summary>>, lookup: Id -> Lookup)
    : (r: Result<seq<Item>, FetchError>)
    ensures r.Failure? <==> listing.None?
    ensures r.Success? ==> |r.value| <= prefs.limit && |r.value| <= |listing.value|
  {
    match listing
    case None => Failure(NoListing)
    case Some(entries) => Success(EnrichAll(Truncate(entries, prefs.limit), lookup))
  }

  /** Enrichment is undone by dropping the details: it neither adds, drops
      nor reorders entries. */
  lemma EnrichAllKeepsEntries(entries: seq<Summary>, lookup: Id -> Lookup)
    ensures Summaries(EnrichAll(entries, lookup)) == entries
  {
    var items := EnrichAll(entries, lookup);
    assert forall i :: 0 <= i < |entries| ==> Summaries(items)[i] == entries[i];
  }

  /** The details each item ends up with: the first record of its own lookup,
      or none when that lookup answered `null` or an empty array. */
  lemma {:induction false} EnrichAllDetails(entries: seq<Summary>, lookup: Id -> Lookup, i: nat)
    requires i < |entries|
    ensures EnrichAll(entries, lookup)[i].details == DetailsFrom(lookup(entries[i].id))
    decreases i
  {
    if i > 0 {
      EnrichAllDetails(entries[1..], lookup, i - 1);
    }
  }

  /** The fetched list is the prefix of the listing of length
      min(|listing|, limit), in the service's order, each entry enriched by
      its own lookup; a missing record never removes an entry. */
  lemma FetchCocktailsSpec(prefs: Preferences, entries: seq<Summary>, lookup: Id -> Lookup)
    ensures var r := FetchCocktails(prefs, Some(entries), lookup);
      && r.Success?
      && |r.value| == Min(|entries|, prefs.limit)
      && Summaries(r.value) == entries[..|r.value|]
      && (forall i :: 0 <= i < |r.value| ==> r.value[i].details == DetailsFrom(lookup(entries[i].id)))
  {
    var kept := Truncate(entries, prefs.limit);
    EnrichAllKeepsEntries(kept, lookup);
    forall i | 0 <= i < |kept|
      ensures EnrichAll(kept, lookup)[i].details == DetailsFrom(lookup(entries[i].id))
    {
      EnrichAllDetails(kept, lookup, i);
    }
  }

  /** When the listing has at least `limit` entries exactly `limit` are kept. */
  lemma FetchFillsLimit(prefs: Preferences, entries: seq<Summary>, lookup: Id -> Lookup)
    requires |entries| >= prefs.limit
    ensures var r := FetchCocktails(prefs, Some(entries), lookup);
      r.Success? && |r.value| == prefs.limit
  {
    FetchCocktailsSpec(prefs, entries, lookup);
  }

  /** Five "Beer" entries and a limit of 3: the first three, in order. */
  lemma BeerLimitThree(e: seq<Summary>, lookup: Id -> Lookup)
    requires |e| == 5
    ensures var r := FetchCocktails(Preferences("Beer", 3), Some(e), lookup);
      r.Success? && Summaries(r.value) == [e[0], e[1], e[2]]
  {
    FetchCocktailsSpec(Preferences("Beer", 3), e, lookup);
  }

  /** Three entries whose second lookup answers `null`: all three are kept
      and only the second lacks details. */
  lemma MissingSecondDetails(e: seq<Summary>, lookup: Id -> Lookup, limit: nat)
    requires |e| == 3 && limit >= 3
    requires lookup(e[1].id).None?
    requires e[0].id != e[1].id && e[2].id != e[1].id
    requires forall id :: id != e[1].id ==> lookup(id).Some? && |lookup(id).value| > 0
    ensures var r := FetchCocktails(Preferences("Beer", limit), Some(e), lookup);
      && r.Success? && |r.value| == 3
      && r.value[0].details.Some? && r.value[1].details.None? && r.value[2].details.Some?
  {
    FetchCocktailsSpec(Preferences("Beer", limit), e, lookup);
  }
}

=== FILE: views.dfy ===
/** The three rendering routines of app.js reduced to the state they
    produce: which component is displayed, which category option is
    selected, and which drink cards are built and visible. Markup strings are
    not modelled. */
module Views {
  import opened Basics
  import opened Drinks
  import opened Constants
  import Ingredients
  import opened Paging

  /** A `#app > div.component` element: its id and whether it is displayed. */
  datatype Component = Component(id: string, displayed: bool)

  /** One `<option>` of the category select. */
  datatype OptionTag = OptionTag(value: string, selected: bool)

  /** The preferences form as `showPreferences` fills it. `assignedAmount` is
      the value assigned to the range input; a browser clamps what the slider
      shows to [min, max], while the label shows the value unclamped. */
  datatype PreferencesView = PreferencesView(options: seq<OptionTag>, min: nat, max: nat, assignedAmount: nat, amountLabel: nat)

  /** One `<article class="cocktail">`. */
  datatype Card = Card(id: Id, name: string, instructions: string, ingredients: seq<string>, thumb: string, hidden: bool)

  /** The cocktails component: the header counter (always 1 on render), the
      total, the cards built, and whether rendering stopped on a drink without
      details (the `TypeError` of reading a field of `undefined`). */
  datatype CocktailsView = CocktailsView(shownCounter: nat, total: nat, cards: seq<Card>, failed: bool)

  /** What `showCocktails` leaves behind: the cursor and the view. */
  datatype Shown = Shown(pager: Pager, view: CocktailsView)

  /** `showComponent`'s visibility loop: a component is displayed exactly
      when its id is the target; nothing is added, dropped or reordered. */
  function ShowComponent(components: seq<Component>, target: string): (r: seq<Component>)
    ensures |r| == |components|
    ensures forall i :: 0 <= i < |r| ==> r[i].id == components[i].id
    ensures forall i :: 0 <= i < |r| ==> (r[i].displayed <==> components[i].id == target)
  {
    seq(|components|, i requires 0 <= i < |components| => Component(components[i].id, components[i].id == target))
  }

  /** Showing the same component twice is the same as showing it once. */
  lemma ShowComponentIdempotent(components: seq<Component>, target: string)
    ensures ShowComponent(ShowComponent(components, target), target) == ShowComponent(components, target)
  {
  }

  /** The ids of the components, in document order. */
  function ComponentIds(components: seq<Component>): seq<string> {
    seq(|components|, i requires 0 <= i < |components| => components[i].id)
  }

  /** With distinct component ids at most one component is displayed, and
      exactly one when some component carries the target id. */
  lemma ShowComponentExclusive(components: seq<Component>, target: string)
    requires Distinct(ComponentIds(components))
    ensures var r := ShowComponent(components, target);
      && (forall i, j :: 0 <= i < |r| && 0 <= j < |r| && r[i].displayed && r[j].displayed ==> i == j)
      && (target in ComponentIds(components) ==> exists i :: 0 <= i < |r| && r[i].displayed)
  {
    var r := ShowComponent(components, target);
    forall i, j | 0 <= i < |r| && 0 <= j < |r| && r[i].displayed && r[j].displayed
      ensures i == j
    {
      assert ComponentIds(components)[i] == ComponentIds(components)[j];
    }
    if target in ComponentIds(components) {
      var i :| 0 <= i < |components| && ComponentIds(components)[i] == target;
      assert r[i].displayed;
    }
  }

  /** `showPreferences`: one option per category in list order, selected when
      it equals the preferred category (loose equality on strings), and the
      slider set to the bounds and the preferred limit. */
  function ShowPreferences(prefs: Preferences): (v: PreferencesView)
    ensures |v.options| == |Categories()|
    ensures forall i :: 0 <= i < |v.options| ==>
      v.options[i].value == Categories()[i] && (v.options[i].selected <==> Categories()[i] == prefs.category)
    ensures v.min == AmountOfQuestions().min && v.max == AmountOfQuestions().max
    ensures v.assignedAmount == prefs.limit && v.amountLabel == prefs.limit
  {
    var cs := Categories();
    PreferencesView(
      seq(|cs|, i requires 0 <= i < |cs| => OptionTag(cs[i], cs[i] == prefs.category)),
      AmountOfQuestions().min, AmountOfQuestions().max, prefs.limit, prefs.limit)
  }

  /** Exactly one option is selected when the preferred category is one of
      the categories, and none when it is not (a stored value from elsewhere). */
  lemma ShowPreferencesSelectsOne(prefs: Preferences)
    ensures var v := ShowPreferences(prefs);
      && (prefs.category in Categories() ==> exists i :: 0 <= i < |v.options| && v.options[i].selected)
      && (forall i, j :: 0 <= i < |v.options| && 0 <= j < |v.options| && v.options[i].selected && v.options[j].selected ==> i == j)
      && (prefs.category !in Categories() ==> forall i :: 0 <= i < |v.options| ==> !v.options[i].selected)
  {
    var v := ShowPreferences(prefs);
    if prefs.category in Categories() {
      var i :| 0 <= i < |Categories()| && Categories()[i] == prefs.category;
      assert v.options[i].selected;
    }
  }

  /** Every item has details, so rendering does not stop early. */
  predicate AllEnriched(items: seq<Item>) {
    forall i :: 0 <= i < |items| ==> items[i].details.Some?
  }

  /** The card for an enriched item; it is hidden unless its id is the active
      one. */
  function CardOf(item: Item, active: Id): Card
    requires item.details.Some?
  {
    var d := item.details.value;
    Card(item.id, item.name, d.instructions, Ingredients.Extract(d), d.thumb, item.id != active)
  }

  /** The rendering loop from index `i`: it builds one card per item and
      stops at the first item without details. */
  function CardsFrom(items: seq<Item>, i: nat, active: Id): (cards: seq<Card>)
    requires i <= |items|
    ensures i + |cards| <= |items|
    ensures forall j :: i <= j < i + |cards| ==> items[j].details.Some? && cards[j - i] == CardOf(items[j], active)
    ensures i + |cards| == |items| || items[i + |cards|].details.None?
    decreases |items| - i
  {
    if i == |items| || items[i].details.None? then []
    else [CardOf(items[i], active)] + CardsFrom(items, i + 1, active)
  }

  /** `showCocktails`. The ingredient scan of the first drink runs before the
      cursor is reset, so a first drink without details leaves the cursor as
      it was. */
  function ShowCocktails(items: seq<Item>, p: Pager): (r: Shown)
    ensures |items| > 0 && items[0].details.Some? ==> r.pager == Pager(Some(items[0].id), Some(1))
    ensures !(|items| > 0 && items[0].details.Some?) ==> r.pager == p
    ensures r.view.total == |items| && r.view.shownCounter == 1
  {
    if |items| == 0 then Shown(p, CocktailsView(1, 0, [], false))
    else
      var pager := if items[0].details.Some? then Reset(items) else p;
      Shown(pager, CocktailsView(1, |items|, CardsFrom(items, 0, items[0].id), !AllEnriched(items)))
  }

  /** The cards are the drinks before the first one without details, in list
      order, each with its extracted ingredients; rendering fails exactly when
      some drink lacks details; a card is visible exactly when its id is the
      first drink's id. */
  lemma ShowCocktailsCards(items: seq<Item>, p: Pager)
    requires |items| > 0
    ensures var v := ShowCocktails(items, p).view;
      && v.total == |items| && v.shownCounter == 1
      && |v.cards| <= |items|
      && (v.failed <==> |v.cards| < |items|)
      && (|v.cards| < |items| ==> items[|v.cards|].details.None?)
      && (forall k :: 0 <= k < |v.cards| ==>
            && items[k].details.Some?
            && v.cards[k].id == items[k].id
            && v.cards[k].name == items[k].name
            && v.cards[k].instructions == items[k].details.value.instructions
            && v.cards[k].thumb == items[k].details.value.thumb
            && v.cards[k].ingredients == Ingredients.Extract(items[k].details.value)
            && (v.cards[k].hidden <==> items[k].id != items[0].id))
  {
    var cards := CardsFrom(items, 0, items[0].id);
    assert forall k :: 0 <= k < |cards| ==> items[k].details.Some? && cards[k] == CardOf(items[k], items[0].id);
    if |cards| < |items| {
      assert items[|cards|].details.None?;
    } else {
      assert AllEnriched(items);
    }
  }

  /** With distinct ids and a first drink that has details, exactly the first
      card is visible. */
  lemma ShowCocktailsOneVisible(items: seq<Item>, p: Pager)
    requires DistinctIds(items) && |items| > 0 && items[0].details.Some?
    ensures var cards := ShowCocktails(items, p).view.cards;
      && |cards| > 0 && !cards[0].hidden
      && forall k :: 1 <= k < |cards| ==> cards[k].hidden
  {
    ShowCocktailsCards(items, p);
    assert forall k :: 1 <= k < |items| ==> Ids(items)[k] != Ids(items)[0];
  }
}
